=== FILE: README.md ===
# eBay draft-listing pipeline, modelled in Dafny

The listing service receives a product listing (title, description, brand,
condition, suggested price, currency and an image URL) and turns it into an
eBay draft in three dependent calls against the Sell Inventory API: upload
the image, create an inventory item under a freshly generated SKU, and
create a fixed-price draft offer for that SKU. Before that it checks its
configuration and downloads the image. The interactive front end adds two
small pieces of logic: cleaning the vision model's reply before it is
parsed as JSON, and a connection check against the sandbox.

The project models that core as pure functions over immutable datatypes:

- `text.dfy` (module `Text`): the Python string operations the service
  relies on, `str.replace(pat, '')`, `str.strip()`, `str.upper()`, and
  hexadecimal digits, with their laws.
- `listing.dfy` (module `Listing`): the posted listing, the inventory-item
  and offer bodies built from it, and the SKU.
- `stages.dfy` (module `Stages`): the four stage helpers, each mapping the
  remote side's response to the value the helper returns (possibly `None`)
  or the exception it raises.
- `pipeline.dfy` (module `Pipeline`): `create_listing` as a function of
  the configuration, the listing and a `World` that fixes the remote
  answer of each stage and the two UUIDs the run draws. It returns the
  reply together with the trace of stage calls it made, each with the
  request it carried.
- `app.dfy` (module `App`): the reply cleaning and the sandbox check.
- `wrappers.dfy` (module `Wrappers`): the option type for Python's `None`.

Behaviour worth knowing, as the code has it:

- `raise_for_status` raises only for statuses 400 to 599.
- A failed image download is turned into a plain exception. So even an
  image server's 404 is answered with 500, never with its own status.
- An `HTTPError` from an eBay stage is answered with eBay's status. If the
  error body is non-empty and not JSON, reading it raises inside the
  handler, and the framework answers 500 (`Reason.Unhandled`).
- A falsy stage result stops the run with 500. Both `None` and the empty
  string count as falsy. The `HTTPException` raised for it is caught again
  by the generic handler, which still answers 500.
- The inventory item succeeds only on 204. Any other non-error status,
  200 included, returns `None`. The offer succeeds only on 201 with an
  `offerId`.
- An eBay request that gets no response at all raises a
  `ConnectionError`, which is not an `HTTPError`, so the generic handler
  answers 500. Only the image
  download sets a timeout; the eBay requests set none.
- The offer has no price or currency fallback; both are copied as given.
- The cleaned model reply is not checked for prose around the JSON.
  Only fence markers and surrounding whitespace are removed.
- The condition is not checked against an enumeration, and the title
  length is not enforced.
- A failing stage is reported through a status and a message, not as a
  structured stage indicator. The trace in the model shows how far the run
  got.
- Image extraction is not a stage of `create_listing`. That endpoint
  receives an already extracted listing.

## Model

| member | source | states |
|---|---|---|
| Text.RemoveAll | app.py:60 | `replace(pat, '')` never lengthens the text; `RemoveAllAtFirst` and `RemoveAllAbsent` together pin it to Python's single left-to-right pass, and `RemoveFenceLeavesNone`, `RemoveCharConcat` and `RemoveCharIsOmit` give its consequences |
| Text.RemoveAllKeepsPrefix | app.py:60 | a prefix in which no occurrence of `pat` starts passes through `replace(pat, '')` unchanged, ahead of the cleaned rest |
| Text.RemoveAllAtFirst | app.py:60 | `replace(pat, '')` keeps everything before the leftmost occurrence of `pat`, cuts that occurrence out and carries on right after it, so deleting never rescans text it has already passed |
| Text.RemoveCharConcat | main.py:101 | deleting one character works piecewise: each part of a concatenation loses its own occurrences, nothing is moved across the join |
| Text.RemoveCharIsOmit | main.py:101 | `replace(c, '')` for a single character is exactly the other characters of the text, in their original order |
| Text.RemoveCharSpec | main.py:101 | deleting every `_` keeps the other characters in their order and leaves no `_`; every other character keeps its multiplicity, and the text shrinks by exactly the number of `_` |
| Text.RemoveAllAbsent | app.py:60 | `replace(pat, '')` leaves a text unchanged if and only if `pat` does not occur in it |
| Text.RemoveAllSkipsPrefix | app.py:60 | text that cannot start an occurrence of the pattern is passed through unchanged, ahead of the rest |
| Text.RemoveFenceLeavesNone | app.py:60 | after `replace('```', '')` no triple backtick remains, whatever the input |
| Text.Strip | app.py:60 | `strip()` yields the piece of the text after its leading whitespace, with only whitespace around it and none at either end |
| Text.StripOf | app.py:60 | a trimmed text surrounded by any whitespace strips to exactly itself, so `strip()` is fully determined |
| Text.Upper | main.py:81 | `upper()` keeps the length and maps each character on its own: a lower-case letter becomes its upper-case letter, and every other character is kept |
| Text.UpperHexNumber | main.py:81 | upper-casing hexadecimal digits gives upper-case hexadecimal digits for the same number |
| App.CleanReply | app.py:60 | the cleaned reply holds no triple backtick and has no whitespace at either end |
| App.CleanReplyIdempotent | app.py:60 | cleaning an already cleaned reply changes nothing |
| App.CleanReplyWithoutBackticks | app.py:60 | a reply with no backtick is only stripped of surrounding whitespace |
| App.CleanReplyUnwrapsCodeBlock | app.py:60 | a JSON text with no backtick and no surrounding whitespace, wrapped as a JSON code block, cleans to exactly that text |
| App.CheckSandboxConnection | app.py:63-80 | the check reports success if and only if the status is 200; otherwise it reports failure when the body is JSON and raises when it is not |
| Listing.BuildInventoryItem | main.py:90-104 | the item copies title, description and brand, keeps the raw condition as the `Condition` aspect, links exactly the uploaded image, groups as `SINGLE`, describes itself by the title, and its top-level condition is the raw one with every `_` deleted and the other characters kept in order |
| Listing.BuildInventoryItemRecoverable | main.py:90-104 | every built item is well formed, and title, description, brand, raw condition and image id can be read back from it unchanged |
| Listing.WellFormedItemIsBuilt | main.py:90-104 | every well-formed item is the one built from the fields it carries |
| Listing.JoinWords | main.py:101 | two words joined by `_` are sent joined with nothing between them |
| Listing.UsedExcellentSentJoined | main.py:101 | the condition `USED_EXCELLENT` is sent as `USEDEXCELLENT` |
| Listing.MakeSku | main.py:81 | the SKU is `SKU-` and then the upper-cased first eight characters of the UUID; the token has no lower-case letter, and for hexadecimal input it is upper-case hexadecimal for the same number |
| Listing.SkuFromUuid | main.py:81 | for a UUID as Python writes it, the SKU is twelve characters: `SKU-` and eight upper-case hexadecimal digits |
| Listing.SkuDeterminesFirstGroup | main.py:81 | two UUIDs give the same SKU only when their first eight characters agree |
| Listing.BuildOffer | main.py:126-144 | the offer is a single-unit, fixed-price `DRAFT` on `EBAY_US` for the given SKU, under the three configured policies, at the listing's price and currency unchanged |
| Listing.DraftOfferIsBuilt | main.py:126-144 | every single-unit fixed-price draft offer is the one built from the SKU, policies and price it carries |
| Stages.JsonGet | main.py:73 | `.json().get(key)` returns the member when the body is an object holding the key, `None` when the object lacks it, and raises when the body is not JSON or not an object |
| Stages.FetchImage | main.py:40-49 | the download returns the content unless the server is unreachable or answers 400-599, and every failure is a plain exception |
| Stages.UploadImage | main.py:51-73 | the upload raises without a token, raises a `ConnectionError`, which is not an `HTTPError`, when eBay gives no response, raises `HTTPError` on 400-599, and otherwise returns the body's `fileId` |
| Stages.CreateInventoryItem | main.py:75-112 | the item stage returns the SKU made from the UUID if and only if the answer is 204; other non-error statuses, 200 included, return `None`; 400-599 raise `HTTPError`; no response raises a `ConnectionError`, which is not an `HTTPError` |
| Stages.CreateOffer | main.py:114-152 | the offer stage returns an offer id only for 201 and a body holding `offerId`; other non-error statuses return `None`; 400-599 raise `HTTPError`; no response raises a `ConnectionError`, which is not an `HTTPError` |
| Pipeline.Preflight | main.py:177-183 | the pre-flight check refuses if and only if the token is missing or empty or the fulfillment policy id is the placeholder `1234567890` |
| Pipeline.Report | main.py:213-221 | an `HTTPError` is answered with eBay's status when its body is empty or JSON, and with 500 when a non-empty body is not JSON, because reading it raises inside the handler; every other exception is answered with 500 |
| Pipeline.CreateListing | main.py:172-221 | stages are called in the order fetch, upload, item, offer, none skipped or repeated; nothing is called if and only if pre-flight refuses; a stage is called only when the one before passed on a truthy value; the fetched image is the uploaded one; the file id is the item's one image; the SKU of the item is the SKU of the offer and the reply; success holds if and only if all four calls are made and the offer yields an id; an answer other than 200 and 500 is an eBay error status, and it is exactly the status eBay gave the last call of the run |
| Pipeline.EachStageAtMostOnce | main.py:185-202 | no stage is called twice in one run |
| Pipeline.PreflightRefusesBeforeAnyCall | main.py:177-183 | a missing token or the placeholder policy answers 500 with an empty trace |
| Pipeline.FetchFailureStops | main.py:186-187 | a failed download answers 500, whatever the image server's status, and nothing after the fetch is called |
| Pipeline.MissingFileIdStops | main.py:189-192 | an upload without a file id answers 500 after exactly two calls |
| Pipeline.ItemNot204Stops | main.py:194-197 | an inventory answer that is neither an error nor 204 answers 500 after exactly three calls, so no offer is created |
| Pipeline.UploadBodyNotObjectFails | main.py:69-73 | an upload answered with a non-error status whose body is not a JSON object answers 500 after exactly two calls |
| Pipeline.OfferNot201Fails | main.py:199-202 | an offer answer that is neither an error nor 201 answers 500 |
| Pipeline.OfferWithoutIdFails | main.py:146-152 | an offer answered 201 whose body is not a JSON object with a non-empty `offerId` answers 500 after all four calls |
| Pipeline.EbayErrorStatusPassedOn | main.py:213-217 | an eBay stage answering 400-599 with a readable body ends the run with that same status, and that stage is the last one called |
| Pipeline.EbayUnreadableErrorAnswers500 | main.py:213-217 | an eBay stage answering 400-599 with a non-empty body that is not JSON ends the run with 500, not eBay's status, and that stage is the last one called |
| Pipeline.EbayUnreachableAnswers500 | main.py:218-221 | an eBay request that gets no response ends the run with 500 through the generic handler, and that stage is the last one called |
| Pipeline.SuccessExactlyWhenAllStagesPass | main.py:204-211 | the run succeeds if and only if the image downloads, the upload yields a file id, the item is answered 204 and the offer 201 with an id; the reply then names the listing's title, the SKU made from the run's UUID and eBay's offer id |
| Pipeline.EndToEndScenario | main.py:172-211 | file `f123`, a UUID starting `ab12cd34` and offer `5001234567` give the reply with title, `SKU-AB12CD34` and `5001234567` |

## Left out

- Network I/O: every HTTP request of the listing service, and the Gemini call, is replaced by the answer the remote side gives; an eBay request of the listing service may also get no answer, when `requests` raises a connection error. Which connection error it was, headers, URLs, the image download's timeout value, streaming and the multipart encoding are not modelled.
- The eBay requests of the listing service set no timeout, so a silent eBay server blocks the run forever. A run that never returns is not modelled: every modelled run ends with a reply.
- The vision-model call and `json.loads` of the cleaned reply: the model stops at the cleaned string.
- `e.response.json()` in the error handler: only whether it succeeds is modelled, not the detail it produces. Reply messages are modelled as a `Reason` tag, not as text. Logging with `print` is left out.
- FastAPI routing, the async endpoint, the HTML status page, the uvicorn bootstrap, the Streamlit UI, CSS loading and secrets: these are framework plumbing with no logic of the pipeline.
- Environment loading: the token and the three policy ids are plain inputs in `Config`. Their environment defaults appear only in the placeholder constant.
- UUID randomness: the UUID texts for the file name and the SKU are inputs. SKU collisions are not checked by the code and are not modelled.
- The suggested price is a Python float. It is carried as a `real` and only copied, so rounding is not modelled.
- Text.Strip: whitespace is the ASCII set Python's `str.isspace` accepts (9-13 and 28-32). Python's `strip()` also removes non-ASCII Unicode whitespace such as U+0085 and U+00A0.
- Text.Upper: only ASCII letters are upper-cased. Python's `str.upper()` also maps non-ASCII letters, some to several characters. A UUID text is ASCII, so the SKU is unaffected.
- Stages.JsonGet: JSON members are modelled as strings. A `fileId` or `offerId` of another JSON type, and its truthiness, is not modelled.
- App.CheckSandboxConnection: the messages the check shows in the UI are not modelled, only its result. It takes a received response, so a connection error of its GET request, which propagates out of the check, is not modelled.

=== FILE: app.dfy ===
/**
  The two pieces of logic in the interactive front end (app.py): cleaning the
  vision model's reply before it is parsed as JSON, and the sandbox
  connection check.
*/
module App {
  import opened Text
  import opened Stages

  /* ---------------------------------------------------------------------- */
  /*  Cleaning the model's reply (app.py line 60)                            */
  /* ---------------------------------------------------------------------- */

  /** The opening fence marker of a JSON code block. */
  const JsonFence: string := "```json"

  /**
    `response.text.replace('```json', '').replace('```', '').strip()`: fence
    markers are deleted wherever they occur, then surrounding whitespace.
    Whatever the reply, the cleaned text holds no triple backtick and has no
    whitespace at either end.
  */
  function CleanReply(text: string): (clean: string)
    ensures !Contains(clean, Fence)
    ensures Trimmed(clean)
  {
    var unfenced := RemoveAll(RemoveAll(text, JsonFence), Fence);
    RemoveFenceLeavesNone(RemoveAll(text, JsonFence));
    StripKeepsAbsence(unfenced, Fence);
    Strip(unfenced)
  }

  /** Cleaning a cleaned reply changes nothing. */
  lemma CleanReplyIdempotent(text: string)
    ensures CleanReply(CleanReply(text)) == CleanReply(text)
  {
    var c := CleanReply(text);
    if Contains(c, JsonFence) {
      var i :| 0 <= i <= |c| - |JsonFence| && OccursAt(c, JsonFence, i);
      assert c[i..i + 3] == c[i..i + |JsonFence|][..3];
      assert OccursAt(c, Fence, i);
    }
    RemoveAllAbsent(c, JsonFence);
    RemoveAllAbsent(c, Fence);
    StripTrimmed(c);
  }

  /** A reply without any backtick is only stripped of surrounding whitespace. */
  lemma CleanReplyWithoutBackticks(text: string)
    requires '`' !in text
    ensures CleanReply(text) == Strip(text)
  {
    RemoveAllSkipsPrefix(text, [], JsonFence);
    RemoveAllSkipsPrefix(text, [], Fence);
    assert text + [] == text;
  }

  /**
    A JSON text wrapped in a markdown code block, as the model often answers,
    comes back exactly as the JSON text.
  */
  lemma CleanReplyUnwrapsCodeBlock(json: string)
    requires '`' !in json && Trimmed(json)
    ensures CleanReply(JsonFence + "\n" + json + "\n" + Fence) == json
  {
    var body := "\n" + json + "\n";
    assert '`' !in body;
    var text := JsonFence + "\n" + json + "\n" + Fence;
    assert text == JsonFence + (body + Fence);
    assert text[..|JsonFence|] == JsonFence;
    assert RemoveAll(text, JsonFence) == RemoveAll(body + Fence, JsonFence);
    RemoveAllSkipsPrefix(body, Fence, JsonFence);
    assert RemoveAll(text, JsonFence) == body + Fence;
    RemoveAllSkipsPrefix(body, Fence, Fence);
    assert RemoveAll(Fence, Fence) == [];
    assert body + [] == body;
    StripOf("\n", json, "\n");
  }

  /* ---------------------------------------------------------------------- */
  /*  Sandbox connection check (app.py lines 63-80)                          */
  /* ---------------------------------------------------------------------- */

  /**
    `push_draft_to_ebay_sandbox`: reports success exactly when the listing
    endpoint answers 200; any other status reports failure after showing the
    response body as JSON, which raises when the body is not JSON.
  */
  function CheckSandboxConnection(response: Response): (r: Outcome<bool>)
    ensures r == Returned(true) <==> response.status == 200
    ensures r == Returned(false) <==> response.status != 200 && Parses(response.body)
    ensures r.Raised? ==> r.exc == Error(NotJson)
  {
    if response.status == 200 then Returned(true)
    else if Parses(response.body) then Returned(false)
    else Raised(Error(NotJson))
  }
}

=== FILE: listing.dfy ===
/**
  The request data of the listing service (main.py): the listing the caller
  posts, the inventory-item and offer bodies built from it, and the SKU the
  inventory item is stored under.
*/
module Listing {
  import opened Text

  /* ---------------------------------------------------------------------- */
  /*  Input (main.py lines 29-36)                                            */
  /* ---------------------------------------------------------------------- */

  /**
    The body of `POST /create-listing/`. The suggested price is a float in
    the service; it is only copied into the offer, so it is kept as a `real`
    and never computed with.
  */
  datatype ListingPayload = ListingPayload(
    title: string,
    description: string,
    brand: string,
    condition: string,
    suggestedPrice: real,
    currency: string,
    imageUrl: string)

  /** The three business-policy ids the service is configured with (main.py lines 21-25). */
  datatype PolicyIds = PolicyIds(fulfillment: string, payment: string, returnPolicy: string)

  /* ---------------------------------------------------------------------- */
  /*  Inventory item (main.py lines 90-104)                                  */
  /* ---------------------------------------------------------------------- */

  datatype Aspects = Aspects(brand: seq<string>, condition: seq<string>)

  datatype Product = Product(
    title: string,
    description: string,
    aspects: Aspects,
    imageUrls: seq<string>)

  datatype InventoryItem = InventoryItem(
    product: Product,
    condition: string,
    conditionDescription: string,
    group: string)

  const ConditionDescriptionPrefix: string := "AI-Generated Listing for: "
  const SingleGroup: string := "SINGLE"

  /** The separator the listing's condition words are joined with (`USED_EXCELLENT`). */
  const ConditionSeparator: char := '_'

  /**
    The inventory-item body for a listing whose image was uploaded as
    `imageId`. The product copies title, description and brand; the
    `Condition` aspect keeps the raw condition, while the top-level condition
    is the raw one with every separator deleted and nothing else changed.
  */
  function BuildInventoryItem(listing: ListingPayload, imageId: string): (item: InventoryItem)
    ensures item.product.title == listing.title
    ensures item.product.description == listing.description
    ensures item.product.aspects == Aspects([listing.brand], [listing.condition])
    ensures item.product.imageUrls == [imageId]
    ensures item.condition == Omit(listing.condition, ConditionSeparator)
    ensures ConditionSeparator !in item.condition
    ensures multiset(item.condition) == multiset(listing.condition)[ConditionSeparator := 0]
    ensures |item.condition| == |listing.condition| - multiset(listing.condition)[ConditionSeparator]
    ensures |item.conditionDescription| == |ConditionDescriptionPrefix| + |listing.title|
    ensures item.conditionDescription[..|ConditionDescriptionPrefix|] == ConditionDescriptionPrefix
    ensures item.conditionDescription[|ConditionDescriptionPrefix|..] == listing.title
    ensures item.group == SingleGroup
  {
    RemoveCharSpec(listing.condition, ConditionSeparator);
    InventoryItem(
      Product(listing.title, listing.description,
              Aspects([listing.brand], [listing.condition]), [imageId]),
      RemoveAll(listing.condition, [ConditionSeparator]),
      ConditionDescriptionPrefix + listing.title,
      SingleGroup)
  }

  /**
    What an inventory item built by the service looks like, stated on the
    item alone: one brand, one raw condition, one image, a top-level
    condition derived from the raw one, a description naming the title.
  */
  predicate WellFormedItem(item: InventoryItem) {
    && |item.product.aspects.brand| == 1
    && |item.product.aspects.condition| == 1
    && |item.product.imageUrls| == 1
    && item.condition == RemoveAll(item.product.aspects.condition[0], [ConditionSeparator])
    && item.conditionDescription == ConditionDescriptionPrefix + item.product.title
    && item.group == SingleGroup
  }

  /** The listing fields an inventory item carries, and the image it links. */
  datatype ItemSource = ItemSource(title: string, description: string, brand: string, condition: string, imageId: string)

  function SourceOfItem(item: InventoryItem): ItemSource
    requires WellFormedItem(item)
  {
    ItemSource(item.product.title, item.product.description,
               item.product.aspects.brand[0], item.product.aspects.condition[0],
               item.product.imageUrls[0])
  }

  /** Every built item is well formed and gives back exactly what it was built from. */
  lemma BuildInventoryItemRecoverable(listing: ListingPayload, imageId: string)
    ensures WellFormedItem(BuildInventoryItem(listing, imageId))
    ensures SourceOfItem(BuildInventoryItem(listing, imageId))
         == ItemSource(listing.title, listing.description, listing.brand, listing.condition, imageId)
  {
  }

  /** Every well-formed item is the one built from the fields it carries. */
  lemma WellFormedItemIsBuilt(item: InventoryItem, listing: ListingPayload)
    requires WellFormedItem(item)
    requires var src := SourceOfItem(item);
      listing.title == src.title && listing.description == src.description
      && listing.brand == src.brand && listing.condition == src.condition
    ensures BuildInventoryItem(listing, SourceOfItem(item).imageId) == item
  {
    var built := BuildInventoryItem(listing, SourceOfItem(item).imageId);
    assert built.product.aspects == item.product.aspects;
    assert built.product.imageUrls == item.product.imageUrls;
  }

  /** The condition `USED_EXCELLENT` is sent as `USEDEXCELLENT`. */
  lemma UsedExcellentSentJoined(listing: ListingPayload, imageId: string)
    requires listing.condition == "USED_EXCELLENT"
    ensures BuildInventoryItem(listing, imageId).condition == "USEDEXCELLENT"
  {
    JoinWords("USED", "EXCELLENT");
    assert "USED" + [ConditionSeparator] + "EXCELLENT" == listing.condition;
    assert "USED" + "EXCELLENT" == "USEDEXCELLENT";
  }

  /** Two separator-free words joined by one separator lose just the separator. */
  lemma JoinWords(a: string, b: string)
    requires ConditionSeparator !in a && ConditionSeparator !in b
    ensures RemoveAll(a + [ConditionSeparator] + b, [ConditionSeparator]) == a + b
  {
    var sep := [ConditionSeparator];
    assert a + sep + b == a + (sep + b);
    RemoveAllSkipsPrefix(a, sep + b, sep);
    assert (sep + b)[..1] == sep && (sep + b)[1..] == b;
    RemoveAllSkipsPrefix(b, [], sep);
    assert b + [] == b;
  }

  /* ---------------------------------------------------------------------- */
  /*  SKU (main.py line 81)                                                  */
  /* ---------------------------------------------------------------------- */

  const SkuPrefix: string := "SKU-"

  /** How many characters of the UUID the SKU keeps. */
  const SkuTokenLength: nat := 8

  function Min(a: int, b: int): int { if a < b then a else b }

  /**
    A UUID in Python's canonical text form: 36 characters, lower-case
    hexadecimal digits in groups of 8-4-4-4-12 separated by dashes.
  */
  predicate IsUuidText(u: string) {
    && |u| == 36
    && forall i :: 0 <= i < 36 ==>
         if i == 8 || i == 13 || i == 18 || i == 23 then u[i] == '-' else IsLowerHexDigit(u[i])
  }

  /**
    `f"SKU-{str(uuid)[:8].upper()}"`: the prefix, then the first eight
    characters of the UUID text (all of it when shorter), upper-cased. The
    token part never holds a lower-case letter, and when the UUID starts with
    hexadecimal digits the token is upper-case hexadecimal for the same
    number.
  */
  function MakeSku(uuidText: string): (sku: string)
    ensures |sku| == |SkuPrefix| + Min(SkuTokenLength, |uuidText|)
    ensures sku[..|SkuPrefix|] == SkuPrefix
    ensures forall i :: |SkuPrefix| <= i < |sku| ==> !IsLowerLetter(sku[i])
    ensures (forall i :: 0 <= i < Min(SkuTokenLength, |uuidText|) ==> IsHexDigit(uuidText[i])) ==>
              && (forall i :: |SkuPrefix| <= i < |sku| ==> IsUpperHexDigit(sku[i]))
              && HexNumber(sku[|SkuPrefix|..]) == HexNumber(uuidText[..Min(SkuTokenLength, |uuidText|)])
  {
    var token := uuidText[..Min(SkuTokenLength, |uuidText|)];
    var sku := SkuPrefix + Upper(token);
    assert sku[|SkuPrefix|..] == Upper(token);
    if forall i :: 0 <= i < |token| ==> IsHexDigit(token[i]) then
      UpperHexNumber(token);
      sku
    else
      sku
  }

  /** A SKU made from a UUID is twelve characters: the prefix and eight upper-case hex digits. */
  lemma SkuFromUuid(u: string)
    requires IsUuidText(u)
    ensures |MakeSku(u)| == 12
    ensures MakeSku(u)[..4] == "SKU-"
    ensures forall i :: 4 <= i < 12 ==> IsUpperHexDigit(MakeSku(u)[i])
  {
    assert forall i :: 0 <= i < Min(SkuTokenLength, |u|) ==> IsHexDigit(u[i]);
  }

  /** Two UUIDs give the same SKU only when their first groups agree. */
  lemma SkuDeterminesFirstGroup(u: string, v: string)
    requires IsUuidText(u) && IsUuidText(v)
    requires MakeSku(u) == MakeSku(v)
    ensures u[..8] == v[..8]
  {
    var x, y := u[..8], v[..8];
    assert MakeSku(u)[4..] == Upper(x) && MakeSku(v)[4..] == Upper(y);
    assert forall i :: 0 <= i < 8 ==> IsLowerHexDigit(x[i]);
    assert forall i :: 0 <= i < 8 ==> IsLowerHexDigit(y[i]);
    UpperInjective(x, y);
  }

  /* ---------------------------------------------------------------------- */
  /*  Offer (main.py lines 126-144)                                          */
  /* ---------------------------------------------------------------------- */

  datatype ListingPolicies = ListingPolicies(
    fulfillmentPolicyId: string,
    paymentPolicyId: string,
    returnPolicyId: string)

  datatype Amount = Amount(value: real, currency: string)

  datatype PricingSummary = PricingSummary(price: Amount)

  datatype Offer = Offer(
    sku: string,
    marketplaceId: string,
    format: string,
    quantity: int,
    listingPolicies: ListingPolicies,
    pricingSummary: PricingSummary,
    listingStatus: string)

  const Marketplace: string := "EBAY_US"
  const FixedPrice: string := "FIXED_PRICE"
  const DraftStatus: string := "DRAFT"

  /** A single-unit, fixed-price draft offer on the US marketplace. */
  predicate IsDraftOffer(offer: Offer) {
    && offer.marketplaceId == Marketplace
    && offer.format == FixedPrice
    && offer.quantity == 1
    && offer.listingStatus == DraftStatus
  }

  /**
    The offer body for `sku`: always a single-unit fixed-price draft on the
    US marketplace, under the configured policies, at the listing's price
    and currency exactly as given.
  */
  function BuildOffer(sku: string, listing: ListingPayload, policies: PolicyIds): (offer: Offer)
    ensures IsDraftOffer(offer)
    ensures offer.sku == sku
    ensures offer.listingPolicies.fulfillmentPolicyId == policies.fulfillment
    ensures offer.listingPolicies.paymentPolicyId == policies.payment
    ensures offer.listingPolicies.returnPolicyId == policies.returnPolicy
    ensures offer.pricingSummary.price == Amount(listing.suggestedPrice, listing.currency)
  {
    Offer(sku, Marketplace, FixedPrice, 1,
          ListingPolicies(policies.fulfillment, policies.payment, policies.returnPolicy),
          PricingSummary(Amount(listing.suggestedPrice, listing.currency)),
          DraftStatus)
  }

  /** Every draft offer is the one built from the SKU, policies and price it carries. */
  lemma DraftOfferIsBuilt(offer: Offer, listing: ListingPayload)
    requires IsDraftOffer(offer)
    requires listing.suggestedPrice == offer.pricingSummary.price.value
    requires listing.currency == offer.pricingSummary.price.currency
    ensures BuildOffer(offer.sku, listing,
                       PolicyIds(offer.listingPolicies.fulfillmentPolicyId,
                                 offer.listingPolicies.paymentPolicyId,
                                 offer.listingPolicies.returnPolicyId)) == offer
  {
  }
}

=== FILE: pipeline.dfy ===
/**
  `create_listing` (main.py lines 172-221): the pre-flight checks, then the
  four stages fetch, upload, inventory item and offer, each fed by the one
  before, ending in a success reply or in the HTTP status the service
  answers with. The remote side is a `World` that fixes the answer of each
  stage; the run reports the reply together with the calls it made.
*/
module Pipeline {
  import opened Wrappers
  import opened Listing
  import opened Stages
  import Text

  /* ---------------------------------------------------------------------- */
  /*  Configuration, remote world, calls and replies                         */
  /* ---------------------------------------------------------------------- */

  /** The service's configuration (main.py lines 16-25), as plain values. */
  datatype Config = Config(token: Option<string>, policies: PolicyIds)

  /** The fulfillment policy id the configuration falls back to when none is set. */
  const PlaceholderFulfillmentId: string := "1234567890"

  /**
    What the outside world answers, one reply per stage (for an eBay stage,
    possibly no response at all), and the two UUIDs the run draws: one
    names the uploaded file, one makes the SKU.
  */
  datatype World = World(
    fetch: FetchReply,
    upload: Answer,
    item: Answer,
    offer: Answer,
    fileUuid: string,
    skuUuid: string)

  /** A stage call and the request it carries. */
  datatype Call =
    | FetchCall(url: string)
    | UploadCall(fileName: string, image: seq<bv8>)
    | ItemCall(sku: string, item: InventoryItem)
    | OfferCall(offer: Offer)

  datatype Stage = FetchStage | UploadStage | ItemStage | OfferStage

  function StageOf(call: Call): Stage {
    match call
    case FetchCall(_) => FetchStage
    case UploadCall(_, _) => UploadStage
    case ItemCall(_, _) => ItemStage
    case OfferCall(_) => OfferStage
  }

  /** The only order the stages may be called in. */
  const StageOrder: seq<Stage> := [FetchStage, UploadStage, ItemStage, OfferStage]

  /**
    The calls of a run are a prefix of fetch, upload, item, offer: no stage
    is skipped, repeated or called out of turn.
  */
  predicate CalledInOrder(trace: seq<Call>) {
    |trace| <= |StageOrder| && forall i :: 0 <= i < |trace| ==> StageOf(trace[i]) == StageOrder[i]
  }

  /** Why the service answered with an error. */
  datatype Failure =
    | NoFileId      // the upload returned no file id
    | NoSku         // the inventory item was not answered with 204
    | NoOfferId     // the offer was not answered with 201 and an id
    | Exception(cause: Cause)

  datatype Reason =
    | MissingToken          // pre-flight: no token
    | PlaceholderPolicy     // pre-flight: fulfillment policy id still the placeholder
    | EbayRejected          // eBay answered a stage with an error status
    | Internal(failure: Failure)
    | Unhandled             // the eBay error body was not JSON: the handler itself raised

  datatype Reply =
    | Created(title: string, sku: string, offerId: string)
    | Failed(status: int, reason: Reason)

  datatype Run = Run(reply: Reply, trace: seq<Call>)

  /** The status of a reply as the client sees it; a success is 200. */
  function StatusOf(reply: Reply): int {
    match reply
    case Created(_, _, _) => 200
    case Failed(status, _) => status
  }

  /* ---------------------------------------------------------------------- */
  /*  Error handling (main.py lines 213-221)                                 */
  /* ---------------------------------------------------------------------- */

  /**
    The two exception handlers: an `HTTPError` is answered with eBay's own
    status, unless its non-empty body is not JSON, in which case reading it
    raises inside the handler and the framework answers 500; every other
    exception is answered with 500.
  */
  function Report(exc: Exc): (reply: Reply)
    ensures reply.Failed?
    ensures reply.status != 500 ==> exc.HttpError? && reply.status == exc.response.status
    ensures exc.HttpError? && !exc.response.body.Unparsable? ==> reply == Failed(exc.response.status, EbayRejected)
    ensures exc.HttpError? && exc.response.body.Unparsable? ==> reply == Failed(500, Unhandled)
    ensures exc.Error? ==> reply == Failed(500, Internal(Exception(exc.cause)))
  {
    match exc
    case HttpError(response) =>
      if response.body.Unparsable? then Failed(500, Unhandled) else Failed(response.status, EbayRejected)
    case Error(cause) => Failed(500, Internal(Exception(cause)))
  }

  /** Why the pre-flight checks refuse to start, if they do (main.py lines 177-183). */
  function Preflight(cfg: Config): (refusal: Option<Reason>)
    ensures refusal == None <==> !Falsy(cfg.token) && cfg.policies.fulfillment != PlaceholderFulfillmentId
    ensures Falsy(cfg.token) ==> refusal == Some(MissingToken)
    ensures !Falsy(cfg.token) && cfg.policies.fulfillment == PlaceholderFulfillmentId ==>
              refusal == Some(PlaceholderPolicy)
  {
    if Falsy(cfg.token) then Some(MissingToken)
    else if cfg.policies.fulfillment == PlaceholderFulfillmentId then Some(PlaceholderPolicy)
    else None
  }

  /* ---------------------------------------------------------------------- */
  /*  The orchestration                                                      */
  /* ---------------------------------------------------------------------- */

  /** Values the successive stages hand on, named for the contract. */
  function UploadResult(cfg: Config, w: World): Outcome<Option<string>> {
    UploadImage(cfg.token, w.upload)
  }

  function ItemResult(cfg: Config, w: World): Outcome<Option<string>> {
    CreateInventoryItem(cfg.token, w.skuUuid, w.item)
  }

  function OfferResult(cfg: Config, w: World): Outcome<Option<string>> {
    CreateOffer(cfg.token, w.offer)
  }

  /** The stage passed on a truthy value. */
  predicate Truthy(o: Outcome<Option<string>>) {
    o.Returned? && !Falsy(o.value)
  }

  /**
    The status of a failed run is the status eBay answered its last call
    with: that call is an eBay stage that got a response.
  */
  predicate StatusFromLastCall(w: World, run: Run) {
    && run.reply.Failed?
    && |run.trace| >= 1
    && var stage := StageOf(run.trace[|run.trace| - 1]);
       && stage != FetchStage
       && AnswerOf(w, stage).Answered?
       && run.reply.status == AnswerOf(w, stage).response.status
  }

  /**
    `create_listing`. Pre-flight refusals answer 500 before any call. Then
    each stage is called once, in order, and only when the previous one
    passed on a truthy value; the first stage that raises or passes on a
    falsy value ends the run. The image fetched is the image uploaded, the
    file id uploaded is the one image of the inventory item, and the SKU
    the item was created under is the SKU of the offer and of the reply.
  */
  function CreateListing(cfg: Config, listing: ListingPayload, w: World): (run: Run)
    ensures CalledInOrder(run.trace)
    ensures run.trace == [] <==> Preflight(cfg).Some?
    ensures Preflight(cfg).Some? ==> run.reply == Failed(500, Preflight(cfg).value)
    ensures |run.trace| >= 1 ==> run.trace[0] == FetchCall(listing.imageUrl)
    ensures |run.trace| >= 2 ==>
              && FetchImage(w.fetch).Returned?
              && run.trace[1] == UploadCall(w.fileUuid + ".jpg", FetchImage(w.fetch).value)
    ensures |run.trace| >= 3 ==>
              && Truthy(UploadResult(cfg, w))
              && run.trace[2] == ItemCall(MakeSku(w.skuUuid),
                                          BuildInventoryItem(listing, UploadResult(cfg, w).value.value))
    ensures |run.trace| == 4 ==>
              && ItemResult(cfg, w) == Returned(Some(run.trace[2].sku))
              && run.trace[3] == OfferCall(BuildOffer(run.trace[2].sku, listing, cfg.policies))
    ensures run.reply.Created? <==> |run.trace| == 4 && Truthy(OfferResult(cfg, w))
    ensures run.reply.Created? ==>
              && run.reply.title == listing.title
              && run.reply.sku == run.trace[2].sku == run.trace[3].offer.sku
              && Some(run.reply.offerId) == OfferResult(cfg, w).value
    ensures run.reply.Failed? && run.reply.status != 500 ==>
              && |run.trace| >= 2
              && IsErrorStatus(run.reply.status)
              && run.reply.reason == EbayRejected
    ensures run.reply.Failed? && run.reply.status != 500 ==> StatusFromLastCall(w, run)
  {
    match Preflight(cfg)
    case Some(reason) => Run(Failed(500, reason), [])
    case None =>
      var fetch := FetchCall(listing.imageUrl);
      match FetchImage(w.fetch)
      case Raised(e) => Run(Report(e), [fetch])
      case Returned(image) =>
        var rest := UploadOnward(cfg, listing, w, image);
        PrependKeepsLastCall(w, fetch, rest);
        Run(rest.reply, [fetch] + rest.trace)
  }

  /** A call put in front of a run does not change which call was last. */
  lemma PrependKeepsLastCall(w: World, call: Call, rest: Run)
    ensures StatusFromLastCall(w, rest) ==> StatusFromLastCall(w, Run(rest.reply, [call] + rest.trace))
  {
    if rest.trace != [] {
      var trace := [call] + rest.trace;
      assert trace[|trace| - 1] == rest.trace[|rest.trace| - 1];
    }
  }

  /**
    The run from the upload of `image` on: the upload, then the inventory
    item and the offer as long as each stage before passed on a truthy
    value. The trace holds the calls from the upload on.
  */
  function UploadOnward(cfg: Config, listing: ListingPayload, w: World, image: seq<bv8>): (run: Run)
    ensures 1 <= |run.trace| <= 3
    ensures run.trace[0] == UploadCall(w.fileUuid + ".jpg", image)
    ensures |run.trace| >= 2 ==>
              && Truthy(UploadResult(cfg, w))
              && run.trace[1] == ItemCall(MakeSku(w.skuUuid),
                                          BuildInventoryItem(listing, UploadResult(cfg, w).value.value))
    ensures |run.trace| == 3 ==>
              && ItemResult(cfg, w) == Returned(Some(MakeSku(w.skuUuid)))
              && run.trace[2] == OfferCall(BuildOffer(MakeSku(w.skuUuid), listing, cfg.policies))
    ensures run.reply.Created? <==> |run.trace| == 3 && Truthy(OfferResult(cfg, w))
    ensures run.reply.Created? ==>
              run.reply == Created(listing.title, MakeSku(w.skuUuid), OfferResult(cfg, w).value.value)
    ensures run.reply.Failed? && run.reply.status != 500 ==>
              IsErrorStatus(run.reply.status) && run.reply.reason == EbayRejected
    ensures run.reply.Failed? && run.reply.status != 500 ==> StatusFromLastCall(w, run)
  {
    var upload := UploadCall(w.fileUuid + ".jpg", image);
    match UploadResult(cfg, w)
    case Raised(e) => Run(Report(e), [upload])
    case Returned(imageId) =>
      if Falsy(imageId) then Run(Failed(500, Internal(NoFileId)), [upload])
      else
        var rest := ItemOnward(cfg, listing, w, imageId.value);
        PrependKeepsLastCall(w, upload, rest);
        Run(rest.reply, [upload] + rest.trace)
  }

  /**
    The run from the inventory item linking `imageId` on: the item is
    written under the SKU made from the run's UUID, and the offer follows
    only when the write was answered with 204.
  */
  function ItemOnward(cfg: Config, listing: ListingPayload, w: World, imageId: string): (run: Run)
    ensures 1 <= |run.trace| <= 2
    ensures run.trace[0] == ItemCall(MakeSku(w.skuUuid), BuildInventoryItem(listing, imageId))
    ensures |run.trace| == 2 ==>
              && ItemResult(cfg, w) == Returned(Some(MakeSku(w.skuUuid)))
              && run.trace[1] == OfferCall(BuildOffer(MakeSku(w.skuUuid), listing, cfg.policies))
    ensures run.reply.Created? <==> |run.trace| == 2 && Truthy(OfferResult(cfg, w))
    ensures run.reply.Created? ==>
              run.reply == Created(listing.title, MakeSku(w.skuUuid), OfferResult(cfg, w).value.value)
    ensures run.reply.Failed? && run.reply.status != 500 ==>
              IsErrorStatus(run.reply.status) && run.reply.reason == EbayRejected
    ensures run.reply.Failed? && run.reply.status != 500 ==> StatusFromLastCall(w, run)
  {
    var item := ItemCall(MakeSku(w.skuUuid), BuildInventoryItem(listing, imageId));
    match ItemResult(cfg, w)
    case Raised(e) => Run(Report(e), [item])
    case Returned(created) =>
      if Falsy(created) then Run(Failed(500, Internal(NoSku)), [item])
      else
        var rest := OfferOnward(cfg, listing, w, created.value);
        PrependKeepsLastCall(w, item, rest);
        Run(rest.reply, [item] + rest.trace)
  }

  /**
    The offer for the item stored under `sku`, the last call of a run: the
    run succeeds exactly when the offer yields a truthy offer id.
  */
  function OfferOnward(cfg: Config, listing: ListingPayload, w: World, sku: string): (run: Run)
    ensures run.trace == [OfferCall(BuildOffer(sku, listing, cfg.policies))]
    ensures run.reply.Created? <==> Truthy(OfferResult(cfg, w))
    ensures run.reply.Created? ==> run.reply == Created(listing.title, sku, OfferResult(cfg, w).value.value)
    ensures run.reply.Failed? && run.reply.status != 500 ==>
              IsErrorStatus(run.reply.status) && run.reply.reason == EbayRejected
    ensures run.reply.Failed? && run.reply.status != 500 ==> StatusFromLastCall(w, run)
  {
    var offer := OfferCall(BuildOffer(sku, listing, cfg.policies));
    match OfferResult(cfg, w)
    case Raised(e) => Run(Report(e), [offer])
    case Returned(offerId) =>
      if Falsy(offerId) then Run(Failed(500, Internal(NoOfferId)), [offer])
      else Run(Created(listing.title, sku, offerId.value), [offer])
  }

  /* ---------------------------------------------------------------------- */
  /*  Properties of runs                                                     */
  /* ---------------------------------------------------------------------- */

  /** No stage is called twice in one run. */
  lemma EachStageAtMostOnce(cfg: Config, listing: ListingPayload, w: World)
    ensures var trace := CreateListing(cfg, listing, w).trace;
      forall i, j :: 0 <= i < j < |trace| ==> StageOf(trace[i]) != StageOf(trace[j])
  {
  }

  /** A missing token or the placeholder fulfillment policy answers 500 and calls nothing. */
  lemma PreflightRefusesBeforeAnyCall(cfg: Config, listing: ListingPayload, w: World)
    requires Falsy(cfg.token) || cfg.policies.fulfillment == PlaceholderFulfillmentId
    ensures CreateListing(cfg, listing, w).trace == []
    ensures StatusOf(CreateListing(cfg, listing, w).reply) == 500
  {
  }

  /** Configuration that passes pre-flight: a token and a real fulfillment policy. */
  predicate Configured(cfg: Config) {
    Preflight(cfg).None?
  }

  /** What the world answers the request of an eBay stage. */
  function AnswerOf(w: World, stage: Stage): Answer
    requires stage != FetchStage
  {
    match stage
    case UploadStage => w.upload
    case ItemStage => w.item
    case OfferStage => w.offer
  }

  /**
    Every stage before `stage` passed: the configuration is accepted, the
    image downloads, the upload yields a file id and the item is answered
    with 204, as far as `stage` needs.
  */
  predicate ReachedWith(cfg: Config, w: World, stage: Stage) {
    && Configured(cfg)
    && (stage != FetchStage ==> FetchImage(w.fetch).Returned?)
    && (stage == ItemStage || stage == OfferStage ==> Truthy(UploadResult(cfg, w)))
    && (stage == OfferStage ==> w.item.Answered? && w.item.response.status == ItemCreatedStatus)
  }

  /** A failed download answers 500, whatever status the image server gave, and stops before the upload. */
  lemma FetchFailureStops(cfg: Config, listing: ListingPayload, w: World)
    requires Configured(cfg)
    requires w.fetch.Unreachable? || IsErrorStatus(w.fetch.status)
    ensures CreateListing(cfg, listing, w) == Run(Failed(500, Internal(Exception(FetchFailed))), [FetchCall(listing.imageUrl)])
  {
  }

  /** An upload answered without a file id answers 500 and creates no inventory item. */
  lemma MissingFileIdStops(cfg: Config, listing: ListingPayload, w: World)
    requires Configured(cfg) && FetchImage(w.fetch).Returned?
    requires w.upload.Answered? && !IsErrorStatus(w.upload.response.status)
    requires var body := w.upload.response.body;
      body.Object? && (FileIdKey !in body.members || body.members[FileIdKey] == "")
    ensures CreateListing(cfg, listing, w).reply == Failed(500, Internal(NoFileId))
    ensures |CreateListing(cfg, listing, w).trace| == 2
  {
  }

  /**
    An inventory write answered with any non-error status other than 204,
    200 included, answers 500 and creates no offer.
  */
  lemma ItemNot204Stops(cfg: Config, listing: ListingPayload, w: World)
    requires Configured(cfg) && FetchImage(w.fetch).Returned? && Truthy(UploadResult(cfg, w))
    requires w.item.Answered?
    requires !IsErrorStatus(w.item.response.status) && w.item.response.status != ItemCreatedStatus
    ensures CreateListing(cfg, listing, w).reply == Failed(500, Internal(NoSku))
    ensures |CreateListing(cfg, listing, w).trace| == 3
  {
  }

  /** An offer answered with any non-error status other than 201 answers 500. */
  lemma OfferNot201Fails(cfg: Config, listing: ListingPayload, w: World)
    requires Configured(cfg) && FetchImage(w.fetch).Returned? && Truthy(UploadResult(cfg, w))
    requires w.item.Answered? && w.item.response.status == ItemCreatedStatus
    requires w.offer.Answered?
    requires !IsErrorStatus(w.offer.response.status) && w.offer.response.status != OfferCreatedStatus
    ensures CreateListing(cfg, listing, w).reply == Failed(500, Internal(NoOfferId))
    ensures |CreateListing(cfg, listing, w).trace| == 4
  {
  }

  /**
    An upload answered with a non-error status whose body is not a JSON
    object makes `.json().get('fileId')` raise: the run answers 500 after
    two calls.
  */
  lemma UploadBodyNotObjectFails(cfg: Config, listing: ListingPayload, w: World)
    requires ReachedWith(cfg, w, UploadStage)
    requires w.upload.Answered? && !IsErrorStatus(w.upload.response.status)
    requires !w.upload.response.body.Object?
    ensures var run := CreateListing(cfg, listing, w);
      && run.reply == Failed(500, Internal(Exception(
                               if w.upload.response.body.NonObject? then NotAnObject else NotJson)))
      && |run.trace| == 2
  {
  }

  /**
    An offer answered with 201 whose body is not a JSON object holding a
    non-empty `offerId` is a falsy or failing offer result: the run answers
    500 after all four calls.
  */
  lemma OfferWithoutIdFails(cfg: Config, listing: ListingPayload, w: World)
    requires ReachedWith(cfg, w, OfferStage)
    requires w.offer.Answered? && w.offer.response.status == OfferCreatedStatus
    requires var body := w.offer.response.body;
      !(body.Object? && OfferIdKey in body.members && body.members[OfferIdKey] != "")
    ensures var run := CreateListing(cfg, listing, w);
      && run.reply.Failed? && run.reply.status == 500
      && |run.trace| == 4
  {
  }

  /**
    An eBay stage that answers with an error status and a readable body
    ends the run with that same status, and no later stage is called.
  */
  lemma EbayErrorStatusPassedOn(cfg: Config, listing: ListingPayload, w: World, stage: Stage)
    requires stage != FetchStage && ReachedWith(cfg, w, stage)
    requires AnswerOf(w, stage).Answered?
    requires IsErrorStatus(AnswerOf(w, stage).response.status)
    requires !AnswerOf(w, stage).response.body.Unparsable?
    ensures var run := CreateListing(cfg, listing, w);
      && run.reply == Failed(AnswerOf(w, stage).response.status, EbayRejected)
      && StageOf(run.trace[|run.trace| - 1]) == stage
  {
  }

  /**
    An eBay stage that answers with an error status and a non-empty body
    that is not JSON makes the error handler itself raise: the run answers
    500, not eBay's status, and no later stage is called.
  */
  lemma EbayUnreadableErrorAnswers500(cfg: Config, listing: ListingPayload, w: World, stage: Stage)
    requires stage != FetchStage && ReachedWith(cfg, w, stage)
    requires AnswerOf(w, stage).Answered?
    requires IsErrorStatus(AnswerOf(w, stage).response.status)
    requires AnswerOf(w, stage).response.body.Unparsable?
    ensures var run := CreateListing(cfg, listing, w);
      && run.reply == Failed(500, Unhandled)
      && StageOf(run.trace[|run.trace| - 1]) == stage
  {
  }

  /**
    An eBay request that gets no response (a connection error) is answered
    with 500 through the generic handler, and no later stage is called.
  */
  lemma EbayUnreachableAnswers500(cfg: Config, listing: ListingPayload, w: World, stage: Stage)
    requires stage != FetchStage && ReachedWith(cfg, w, stage)
    requires AnswerOf(w, stage).NoAnswer?
    ensures var run := CreateListing(cfg, listing, w);
      && run.reply == Failed(500, Internal(Exception(NoConnection)))
      && StageOf(run.trace[|run.trace| - 1]) == stage
  {
  }

  /**
    The run succeeds exactly when every stage passes: the image downloads,
    the upload yields a file id, the item is answered 204 and the offer 201
    with an id. The reply names the listing's title, the SKU made from the
    run's UUID and the offer id eBay returned.
  */
  lemma SuccessExactlyWhenAllStagesPass(cfg: Config, listing: ListingPayload, w: World)
    ensures CreateListing(cfg, listing, w).reply.Created? <==>
      && Configured(cfg)
      && FetchImage(w.fetch).Returned?
      && Truthy(UploadResult(cfg, w))
      && w.item.Answered? && w.item.response.status == ItemCreatedStatus
      && w.offer.Answered? && w.offer.response.status == OfferCreatedStatus
      && var body := w.offer.response.body;
         body.Object? && OfferIdKey in body.members && body.members[OfferIdKey] != ""
    ensures CreateListing(cfg, listing, w).reply.Created? ==>
      CreateListing(cfg, listing, w).reply
        == Created(listing.title, MakeSku(w.skuUuid), w.offer.response.body.members[OfferIdKey])
  {
  }

  /**
    An end-to-end example: file `f123`, the SKU drawn from a
    UUID starting `ab12cd34`, offer `5001234567`.
  */
  lemma EndToEndScenario(token: string, policies: PolicyIds, listing: ListingPayload, fetched: seq<bv8>, fileUuid: string)
    requires token != "" && policies.fulfillment != PlaceholderFulfillmentId
    requires listing.title == "Vintage Leather Jacket"
    ensures var w := World(Reply(200, fetched),
                           Answered(Response(200, Object(map[FileIdKey := "f123"]))),
                           Answered(Response(204, Empty)),
                           Answered(Response(201, Object(map[OfferIdKey := "5001234567"]))),
                           fileUuid, "ab12cd34-5678-4abc-9def-0123456789ab");
      CreateListing(Config(Some(token), policies), listing, w).reply
        == Created("Vintage Leather Jacket", "SKU-AB12CD34", "5001234567")
  {
    var u := "ab12cd34-5678-4abc-9def-0123456789ab";
    assert u[..8] == "ab12cd34";
    assert Text.Upper("ab12cd34") == "AB12CD34";
    assert MakeSku(u) == "SKU-AB12CD34";
    var w := World(Reply(200, fetched),
                   Answered(Response(200, Object(map[FileIdKey := "f123"]))),
                   Answered(Response(204, Empty)),
                   Answered(Response(201, Object(map[OfferIdKey := "5001234567"]))),
                   fileUuid, u);
    var cfg := Config(Some(token), policies);
    assert UploadResult(cfg, w) == Returned(Some("f123"));
    assert OfferResult(cfg, w) == Returned(Some("5001234567"));
    SuccessExactlyWhenAllStagesPass(cfg, listing, w);
  }
}

=== FILE: stages.dfy ===
/**
  The helper functions of the listing service (main.py lines 40-152), one
  per remote stage, with every HTTP exchange replaced by the response the
  remote side gives. Each helper either returns a value (possibly Python's
  `None`) or raises.
*/
module Stages {
  import opened Wrappers
  import opened Listing

  /* ---------------------------------------------------------------------- */
  /*  Responses and exceptions                                               */
  /* ---------------------------------------------------------------------- */

  /**
    A response body as `response.json()` sees it: empty, not JSON, a JSON
    object (its string-valued members), or some other JSON value.
  */
  datatype Body = Empty | Unparsable | Object(members: map<string, string>) | NonObject

  /** `response.json()` succeeds. */
  predicate Parses(body: Body) {
    body.Object? || body.NonObject?
  }

  datatype Response = Response(status: int, body: Body)

  /**
    What an eBay request gets back: a response, or no response at all, when
    `requests` raises a connection error before one arrives. (The eBay
    requests set no timeout, so a silent server is never given up on.)
  */
  datatype Answer = Answered(response: Response) | NoAnswer

  /** The image download: a response with its raw content, or no connection at all. */
  datatype FetchReply = Reply(status: int, content: seq<bv8>) | Unreachable

  /** Why a helper raised an exception other than `HTTPError`. */
  datatype Cause =
    | TokenMissing   // "eBay Token is not configured."
    | FetchFailed    // the image could not be downloaded
    | NotJson        // `response.json()` failed
    | NotAnObject    // `.get(...)` on a JSON value that is not an object
    | NoConnection   // `ConnectionError`: a request to eBay got no response

  /**
    `requests.exceptions.HTTPError` with its response, or any other
    exception; the handlers tell only these two apart.
  */
  datatype Exc = HttpError(response: Response) | Error(cause: Cause)

  /** A helper call: the value it returned, or the exception it raised. */
  datatype Outcome<+T> = Returned(value: T) | Raised(exc: Exc)

  /** `response.raise_for_status()` raises for client and server errors, 400 to 599. */
  predicate IsErrorStatus(status: int) {
    400 <= status < 600
  }

  /**
    Python's `not value` for an optional string: `None` and `""` are falsy.
    `not EBAY_TOKEN` is this test on the token.
  */
  predicate Falsy(value: Option<string>) {
    value.None? || value.value == ""
  }

  /**
    `response.json().get(key)`: the member's value when the body is an object
    holding `key`, `None` when the object lacks it, an exception when the
    body is not an object.
  */
  function JsonGet(body: Body, key: string): (r: Outcome<Option<string>>)
    ensures r.Returned? <==> body.Object?
    ensures r == Returned(None) <==> body.Object? && key !in body.members
    ensures forall v :: r == Returned(Some(v)) <==> body.Object? && key in body.members && body.members[key] == v
    ensures body.NonObject? <==> r == Raised(Error(NotAnObject))
    ensures !Parses(body) <==> r == Raised(Error(NotJson))
  {
    match body
    case Object(members) => if key in members then Returned(Some(members[key])) else Returned(None)
    case NonObject => Raised(Error(NotAnObject))
    case _ => Raised(Error(NotJson))
  }

  /* ---------------------------------------------------------------------- */
  /*  The stages                                                             */
  /* ---------------------------------------------------------------------- */

  /**
    `fetch_image_from_url` (main.py lines 40-49): the downloaded bytes, unless
    the server answers with an error status or cannot be reached; both
    become a plain exception, never an `HTTPError`.
  */
  function FetchImage(reply: FetchReply): (r: Outcome<seq<bv8>>)
    ensures r.Returned? <==> reply.Reply? && !IsErrorStatus(reply.status)
    ensures r.Returned? ==> r.value == reply.content
    ensures r.Raised? ==> r.exc == Error(FetchFailed)
  {
    match reply
    case Unreachable => Raised(Error(FetchFailed))
    case Reply(status, content) =>
      if IsErrorStatus(status) then Raised(Error(FetchFailed)) else Returned(content)
  }

  const FileIdKey: string := "fileId"
  const OfferIdKey: string := "offerId"

  /**
    `upload_image_to_ebay` (main.py lines 51-73): without a token it raises
    before any request; a request without response raises
    `ConnectionError`; an error status raises `HTTPError`; otherwise it
    returns the body's `fileId`, which may be missing.
  */
  function UploadImage(token: Option<string>, answer: Answer): (r: Outcome<Option<string>>)
    ensures Falsy(token) ==> r == Raised(Error(TokenMissing))
    ensures !Falsy(token) && answer.NoAnswer? ==> r == Raised(Error(NoConnection))
    ensures !Falsy(token) && answer.Answered? && IsErrorStatus(answer.response.status) ==>
              r == Raised(HttpError(answer.response))
    ensures !Falsy(token) && answer.Answered? && !IsErrorStatus(answer.response.status) ==>
              r == JsonGet(answer.response.body, FileIdKey)
    ensures r.Returned? ==>
              && !Falsy(token) && answer.Answered?
              && !IsErrorStatus(answer.response.status) && answer.response.body.Object?
  {
    if Falsy(token) then Raised(Error(TokenMissing))
    else match answer
      case NoAnswer => Raised(Error(NoConnection))
      case Answered(response) =>
        if IsErrorStatus(response.status) then Raised(HttpError(response))
        else JsonGet(response.body, FileIdKey)
  }

  /** The only status `create_inventory_item` accepts: 204 No Content. */
  const ItemCreatedStatus: int := 204

  /**
    `create_inventory_item` (main.py lines 75-112): returns the SKU it
    generated from `uuidText` exactly when the write is answered with 204;
    any other non-error status, 200 and 201 included, gives `None`; a write
    without response raises `ConnectionError`, an error status `HTTPError`.
  */
  function CreateInventoryItem(token: Option<string>, uuidText: string, answer: Answer)
    : (r: Outcome<Option<string>>)
    ensures r == Returned(Some(MakeSku(uuidText))) <==>
              !Falsy(token) && answer.Answered? && answer.response.status == ItemCreatedStatus
    ensures r == Returned(None) <==>
              && !Falsy(token) && answer.Answered?
              && !IsErrorStatus(answer.response.status) && answer.response.status != ItemCreatedStatus
    ensures r.Returned? ==> r.value == None || r.value == Some(MakeSku(uuidText))
    ensures r.Raised? ==>
              r.exc == if Falsy(token) then Error(TokenMissing)
                       else if answer.NoAnswer? then Error(NoConnection)
                       else HttpError(answer.response)
  {
    if Falsy(token) then Raised(Error(TokenMissing))
    else
      var sku := MakeSku(uuidText);
      match answer
      case NoAnswer => Raised(Error(NoConnection))
      case Answered(response) =>
        if IsErrorStatus(response.status) then Raised(HttpError(response))
        else if response.status == ItemCreatedStatus then Returned(Some(sku))
        else Returned(None)
  }

  /** The only status `create_offer` accepts: 201 Created. */
  const OfferCreatedStatus: int := 201

  /**
    `create_offer` (main.py lines 114-152): on 201 it returns the body's
    `offerId` (which may be missing); any other non-error status gives
    `None`; a request without response raises `ConnectionError`, an error
    status `HTTPError`.
  */
  function CreateOffer(token: Option<string>, answer: Answer): (r: Outcome<Option<string>>)
    ensures r.Returned? && r.value.Some? ==>
              && !Falsy(token) && answer.Answered? && answer.response.status == OfferCreatedStatus
              && answer.response.body.Object? && OfferIdKey in answer.response.body.members
              && r.value.value == answer.response.body.members[OfferIdKey]
    ensures (&& !Falsy(token) && answer.Answered?
             && !IsErrorStatus(answer.response.status) && answer.response.status != OfferCreatedStatus)
              ==> r == Returned(None)
    ensures !Falsy(token) && answer.Answered? && answer.response.status == OfferCreatedStatus ==>
              r == JsonGet(answer.response.body, OfferIdKey)
    ensures !Falsy(token) && answer.Answered? && IsErrorStatus(answer.response.status) ==>
              r == Raised(HttpError(answer.response))
    ensures !Falsy(token) && answer.NoAnswer? ==> r == Raised(Error(NoConnection))
    ensures Falsy(token) ==> r == Raised(Error(TokenMissing))
  {
    if Falsy(token) then Raised(Error(TokenMissing))
    else match answer
      case NoAnswer => Raised(Error(NoConnection))
      case Answered(response) =>
        if IsErrorStatus(response.status) then Raised(HttpError(response))
        else if response.status == OfferCreatedStatus then JsonGet(response.body, OfferIdKey)
        else Returned(None)
  }
}

=== FILE: text.dfy ===
/**
  The Python string operations the listing service relies on, restricted to
  the cases it uses: `str.replace(pat, '')`, `str.strip()`, `str.upper()` and
  slicing, plus the hexadecimal digits a UUID is written in.
*/
module Text {

  /* ---------------------------------------------------------------------- */
  /*  Occurrences and `str.replace(pat, '')`                                 */
  /* ---------------------------------------------------------------------- */

  /** `pat` occurs in `s` starting at index `i`. */
  predicate OccursAt(s: string, pat: string, i: int) {
    0 <= i && i + |pat| <= |s| && s[i..i + |pat|] == pat
  }

  /** Python's `pat in s`. */
  predicate Contains(s: string, pat: string) {
    exists i :: 0 <= i <= |s| - |pat| && OccursAt(s, pat, i)
  }

  /**
    Python's `s.replace(pat, '')` for a non-empty `pat`: scanning from the
    left, every non-overlapping occurrence of `pat` is deleted; a character
    that does not start an occurrence is kept.
  */
  function RemoveAll(s: string, pat: string): (r: string)
    requires |pat| > 0
    ensures |r| <= |s|
    decreases |s|
  {
    if |s| < |pat| then s
    else if s[..|pat|] == pat then RemoveAll(s[|pat|..], pat)
    else [s[0]] + RemoveAll(s[1..], pat)
  }

  /** A string whose first character cannot start `pat` keeps that character first. */
  lemma RemoveAllKeepsHead(s: string, pat: string)
    requires |pat| > 0 && |s| > 0 && s[0] != pat[0]
    ensures |RemoveAll(s, pat)| > 0 && RemoveAll(s, pat)[0] == s[0]
  {
    if |s| >= |pat| {
      assert s[..|pat|][0] != pat[0];
    }
  }

  /** A prefix that never contains the first character of `pat` passes through untouched. */
  lemma {:induction false} RemoveAllSkipsPrefix(s: string, t: string, pat: string)
    requires |pat| > 0
    requires forall i :: 0 <= i < |s| ==> s[i] != pat[0]
    ensures RemoveAll(s + t, pat) == s + RemoveAll(t, pat)
    decreases |s|
  {
    if s == [] {
      assert s + t == t;
    } else if |s + t| < |pat| {
      assert |t| < |pat|;
    } else {
      assert (s + t)[..|pat|][0] == s[0];
      assert (s + t)[1..] == s[1..] + t;
      RemoveAllSkipsPrefix(s[1..], t, pat);
      assert s == [s[0]] + s[1..];
    }
  }

  /** An occurrence in the tail of `s` is an occurrence in `s`, one place later. */
  lemma OccursInTail(s: string, pat: string, j: int)
    requires |s| > 0 && OccursAt(s[1..], pat, j)
    ensures OccursAt(s, pat, j + 1)
  {
    assert s[1..][j..j + |pat|] == s[j + 1..j + 1 + |pat|];
  }

  /** A text that does not start with `pat` keeps its first character. */
  lemma RemoveAllKeepsFirst(s: string, pat: string)
    requires |pat| > 0 && |s| > 0 && !OccursAt(s, pat, 0)
    ensures RemoveAll(s, pat) == [s[0]] + RemoveAll(s[1..], pat)
  {
    if |s| < |pat| {
      assert RemoveAll(s[1..], pat) == s[1..];
      assert s == [s[0]] + s[1..];
    }
  }

  /** With no occurrence before `i` in `s`, the tail has none before `i - 1`. */
  lemma NoEarlierInTail(s: string, pat: string, i: int)
    requires |s| > 0
    requires forall j :: 0 <= j < i ==> !OccursAt(s, pat, j)
    ensures forall j :: 0 <= j < i - 1 ==> !OccursAt(s[1..], pat, j)
  {
    forall j | 0 <= j < i - 1 && OccursAt(s[1..], pat, j)
      ensures false
    {
      OccursInTail(s, pat, j);
    }
  }

  /** A text that starts with `pat` loses that occurrence first. */
  lemma RemoveAllAtStart(s: string, pat: string)
    requires |pat| > 0 && OccursAt(s, pat, 0)
    ensures RemoveAll(s, pat) == RemoveAll(s[|pat|..], pat)
  {
    assert s[..|pat|] == pat;
  }

  /** A prefix in which no occurrence of `pat` starts is kept as it is. */
  lemma {:induction false} RemoveAllKeepsPrefix(p: string, u: string, pat: string)
    requires |pat| > 0
    requires forall j :: 0 <= j < |p| ==> !OccursAt(p + u, pat, j)
    ensures RemoveAll(p + u, pat) == p + RemoveAll(u, pat)
    decreases |p|
  {
    if p == [] {
      assert p + u == u;
    } else {
      var s := p + u;
      assert !OccursAt(s, pat, 0);
      RemoveAllKeepsFirst(s, pat);
      assert s[1..] == p[1..] + u;
      NoEarlierInTail(s, pat, |p|);
      RemoveAllKeepsPrefix(p[1..], u, pat);
      assert [p[0]] + (p[1..] + RemoveAll(u, pat)) == p + RemoveAll(u, pat);
    }
  }

  /**
    The scan cuts out the leftmost occurrence: everything before it is kept,
    and deletion goes on right after it, never inside it.
  */
  lemma RemoveAllAtFirst(s: string, pat: string, i: int)
    requires |pat| > 0 && OccursAt(s, pat, i)
    requires forall j :: 0 <= j < i ==> !OccursAt(s, pat, j)
    ensures RemoveAll(s, pat) == s[..i] + RemoveAll(s[i + |pat|..], pat)
  {
    var p, u := s[..i], s[i..];
    assert s == p + u;
    RemoveAllKeepsPrefix(p, u, pat);
    assert u[..|pat|] == pat;
    RemoveAllAtStart(u, pat);
    assert u[|pat|..] == s[i + |pat|..];
  }

  /** `s.replace(pat, '')` is the identity exactly when `pat` does not occur in `s`. */
  lemma {:induction false} RemoveAllAbsent(s: string, pat: string)
    requires |pat| > 0
    ensures RemoveAll(s, pat) == s <==> !Contains(s, pat)
    decreases |s|
  {
    if !Contains(s, pat) {
      RemoveAllIdentity(s, pat);
    } else {
      var i :| OccursAt(s, pat, i);
      RemoveAllShrinks(s, pat, i);
    }
  }

  lemma {:induction false} RemoveAllIdentity(s: string, pat: string)
    requires |pat| > 0 && !Contains(s, pat)
    ensures RemoveAll(s, pat) == s
    decreases |s|
  {
    if |s| >= |pat| {
      assert !OccursAt(s, pat, 0);
      assert s[..|pat|] != pat;
      forall i | OccursAt(s[1..], pat, i)
        ensures false
      {
        assert s[1..][i..i + |pat|] == s[i + 1..i + 1 + |pat|];
        assert OccursAt(s, pat, i + 1);
      }
      RemoveAllIdentity(s[1..], pat);
      assert s == [s[0]] + s[1..];
    }
  }

  /** An occurrence of `pat` means at least one character is deleted. */
  lemma {:induction false} RemoveAllShrinks(s: string, pat: string, i: int)
    requires |pat| > 0 && OccursAt(s, pat, i)
    ensures |RemoveAll(s, pat)| < |s|
    decreases |s|
  {
    if s[..|pat|] != pat {
      assert i > 0;
      assert s[1..][i - 1..i - 1 + |pat|] == s[i..i + |pat|];
      RemoveAllShrinks(s[1..], pat, i - 1);
    }
  }

  /** One step of deleting `c`: the first character is dropped if it is `c`, kept otherwise. */
  lemma RemoveCharStep(s: string, c: char)
    requires s != []
    ensures RemoveAll(s, [c]) == (if s[0] == c then [] else [s[0]]) + RemoveAll(s[1..], [c])
  {
    if s[0] == c {
      assert s[..1] == [c];
    } else {
      assert s[..1] != [c];
    }
  }

  lemma {:induction false} RemoveCharGone(s: string, c: char)
    ensures c !in RemoveAll(s, [c])
    decreases |s|
  {
    if s != [] {
      RemoveCharStep(s, c);
      RemoveCharGone(s[1..], c);
    }
  }

  lemma {:induction false} RemoveCharKeepsOthers(s: string, c: char)
    ensures multiset(RemoveAll(s, [c])) == multiset(s)[c := 0]
    decreases |s|
  {
    if s != [] {
      var x, t := s[0], s[1..];
      var rest := RemoveAll(t, [c]);
      RemoveCharStep(s, c);
      RemoveCharKeepsOthers(t, c);
      assert s == [x] + t;
      assert multiset(s) == multiset{x} + multiset(t);
      if x == c {
        assert RemoveAll(s, [c]) == rest;
        assert multiset(s)[c := 0] == multiset(t)[c := 0];
      } else {
        assert RemoveAll(s, [c]) == [x] + rest;
        assert multiset([x] + rest) == multiset{x} + multiset(rest);
        assert multiset{x} + multiset(t)[c := 0] == (multiset{x} + multiset(t))[c := 0];
      }
    }
  }

  lemma {:induction false} RemoveCharLength(s: string, c: char)
    ensures |RemoveAll(s, [c])| == |s| - multiset(s)[c]
    decreases |s|
  {
    if s != [] {
      RemoveCharStep(s, c);
      RemoveCharLength(s[1..], c);
      assert s == [s[0]] + s[1..];
      assert multiset(s)[c] == multiset{s[0]}[c] + multiset(s[1..])[c];
    }
  }

  /** Deleting `c` from a text of one character. */
  lemma RemoveCharSingle(x: char, c: char)
    ensures RemoveAll([x], [c]) == if x == c then [] else [x]
  {
    RemoveCharStep([x], c);
    assert [x][1..] == [];
  }

  /** Deleting `c` works piecewise: each part of a concatenation loses its own `c`s. */
  lemma {:induction false} RemoveCharConcat(s: string, t: string, c: char)
    ensures RemoveAll(s + t, [c]) == RemoveAll(s, [c]) + RemoveAll(t, [c])
    decreases |s|
  {
    if s == [] {
      assert s + t == t;
    } else {
      var st := s + t;
      var head := if s[0] == c then [] else [s[0]];
      assert st[0] == s[0];
      assert st[1..] == s[1..] + t;
      RemoveCharStep(st, c);
      RemoveCharStep(s, c);
      RemoveCharConcat(s[1..], t, c);
      var left, right := RemoveAll(s[1..], [c]), RemoveAll(t, [c]);
      assert RemoveAll(st, [c]) == head + (left + right);
      assert RemoveAll(s, [c]) == head + left;
      assert head + (left + right) == (head + left) + right;
    }
  }

  /**
    The characters of `s` other than `c`, in their original order, built
    from the right one character at a time.
  */
  function Omit(s: string, c: char): string {
    if s == [] then []
    else Omit(s[..|s| - 1], c) + (if s[|s| - 1] == c then [] else [s[|s| - 1]])
  }

  /** Deleting a single character `c` with `replace` keeps exactly the other characters, in order. */
  lemma {:induction false} RemoveCharIsOmit(s: string, c: char)
    ensures RemoveAll(s, [c]) == Omit(s, c)
    decreases |s|
  {
    if s != [] {
      var init, last := s[..|s| - 1], s[|s| - 1];
      assert s == init + [last];
      RemoveCharConcat(init, [last], c);
      RemoveCharSingle(last, c);
      RemoveCharIsOmit(init, c);
    }
  }

  /**
    Deleting a single character `c` keeps the other characters in their
    order and removes every `c`; so every other character keeps its
    multiplicity and the text shrinks by the number of `c`.
  */
  lemma RemoveCharSpec(s: string, c: char)
    ensures RemoveAll(s, [c]) == Omit(s, c)
    ensures c !in RemoveAll(s, [c])
    ensures multiset(RemoveAll(s, [c])) == multiset(s)[c := 0]
    ensures |RemoveAll(s, [c])| == |s| - multiset(s)[c]
  {
    RemoveCharIsOmit(s, c);
    RemoveCharGone(s, c);
    RemoveCharKeepsOthers(s, c);
    RemoveCharLength(s, c);
  }

  /** The triple backtick that opens and closes a markdown code fence. */
  const Fence: string := "```"

  /** A character put in front of fence-free text makes a fence only with two backticks after it. */
  lemma NoFenceAfterHead(x: char, rest: string)
    requires !Contains(rest, Fence)
    requires !(x == '`' && |rest| >= 2 && rest[0] == '`' && rest[1] == '`')
    ensures !Contains([x] + rest, Fence)
  {
    var r := [x] + rest;
    if |r| >= 3 {
      assert r[0] == x && r[1] == rest[0] && r[2] == rest[1];
      assert r[..3][0] == r[0] && r[..3][1] == r[1] && r[..3][2] == r[2];
    }
    forall i | OccursAt(r, Fence, i)
      ensures false
    {
      if i > 0 {
        assert r[i..i + 3] == rest[i - 1..i - 1 + 3];
        assert OccursAt(rest, Fence, i - 1);
      }
    }
  }

  /**
    After `s.replace('```', '')` no triple backtick is left: the scan deletes
    triples from the front of every run of backticks, so every run that
    survives is shorter than three.
  */
  lemma {:induction false} RemoveFenceLeavesNone(s: string)
    ensures !Contains(RemoveAll(s, Fence), Fence)
    decreases |s|
  {
    if |s| < 3 {
      var r := RemoveAll(s, Fence);
      assert r == s;
      forall i | OccursAt(r, Fence, i) ensures false { }
    } else if s[..3] == Fence {
      RemoveFenceLeavesNone(s[3..]);
    } else {
      var rest := RemoveAll(s[1..], Fence);
      assert RemoveAll(s, Fence) == [s[0]] + rest;
      RemoveFenceLeavesNone(s[1..]);
      // A backtick kept at the front is followed by at most one more.
      if s[0] == '`' && s[1] != '`' {
        RemoveAllKeepsHead(s[1..], Fence);
      } else if s[0] == '`' && |s| > 3 {
        assert s[1..][..3] != Fence;
        RemoveAllKeepsHead(s[2..], Fence);
      }
      NoFenceAfterHead(s[0], rest);
    }
  }

  /* ---------------------------------------------------------------------- */
  /*  Whitespace and `str.strip()`                                           */
  /* ---------------------------------------------------------------------- */

  /**
    Python's `str.isspace()` on ASCII: tab, line feed, vertical tab, form
    feed, carriage return (9-13), the four information separators (28-31)
    and space (32).
  */
  predicate IsSpace(c: char) {
    9 <= c as int <= 13 || 28 <= c as int <= 32
  }

  predicate AllSpace(s: string) {
    forall i :: 0 <= i < |s| ==> IsSpace(s[i])
  }

  /** Neither the first nor the last character is whitespace. */
  predicate Trimmed(s: string) {
    s == [] || (!IsSpace(s[0]) && !IsSpace(s[|s| - 1]))
  }

  /** How many whitespace characters `s.strip()` drops from the front of `s`. */
  function LeadingSpace(s: string): (n: nat)
    ensures n <= |s|
    ensures forall i :: 0 <= i < n ==> IsSpace(s[i])
    ensures n < |s| ==> !IsSpace(s[n])
  {
    if |s| > 0 && IsSpace(s[0]) then 1 + LeadingSpace(s[1..]) else 0
  }

  /** How many whitespace characters `s.strip()` drops from the end of `s`. */
  function TrailingSpace(s: string): (n: nat)
    ensures n <= |s|
    ensures forall i :: |s| - n <= i < |s| ==> IsSpace(s[i])
    ensures n < |s| ==> !IsSpace(s[|s| - 1 - n])
  {
    if |s| > 0 && IsSpace(s[|s| - 1]) then 1 + TrailingSpace(s[..|s| - 1]) else 0
  }

  /**
    Python's `s.strip()`: the result is the piece of `s` after its leading
    whitespace, `s` holds only whitespace around it, and the result neither
    starts nor ends with whitespace.
  */
  function Strip(s: string): (r: string)
    ensures Trimmed(r)
    ensures LeadingSpace(s) + |r| <= |s|
    ensures r == s[LeadingSpace(s)..LeadingSpace(s) + |r|]
    ensures forall i :: 0 <= i < LeadingSpace(s) ==> IsSpace(s[i])
    ensures forall i :: LeadingSpace(s) + |r| <= i < |s| ==> IsSpace(s[i])
  {
    var lead := LeadingSpace(s);
    if lead == |s| then []
    else s[lead..|s| - TrailingSpace(s)]
  }

  /**
    `strip` is determined by its promises: whatever `t` is surrounded by
    whitespace, if `t` itself is trimmed then stripping yields `t`.
  */
  lemma StripOf(a: string, t: string, b: string)
    requires AllSpace(a) && AllSpace(b) && Trimmed(t)
    ensures Strip(a + t + b) == t
  {
    var s := a + t + b;
    var lead := LeadingSpace(s);
    if t == [] {
      assert forall i :: 0 <= i < |s| ==> IsSpace(s[i]);
      assert lead == |s|;
    } else {
      assert s[|a|] == t[0];
      assert lead == |a|;
      assert s[|s| - 1 - |b|] == t[|t| - 1];
      assert TrailingSpace(s) == |b|;
      assert s[|a|..|s| - |b|] == t;
    }
  }

  /** Stripping a trimmed string changes nothing. */
  lemma StripTrimmed(s: string)
    requires Trimmed(s)
    ensures Strip(s) == s
  {
    StripOf([], s, []);
    assert [] + s + [] == s;
  }

  /** An occurrence inside a slice is an occurrence in the whole text. */
  lemma OccursInSlice(s: string, lo: int, hi: int, pat: string, i: int)
    requires 0 <= lo <= hi <= |s| && OccursAt(s[lo..hi], pat, i)
    ensures OccursAt(s, pat, lo + i)
  {
    var t := s[lo..hi];
    assert |t| == hi - lo;
    forall k | i <= k < i + |pat| ensures t[k] == s[lo + k] { }
    assert t[i..i + |pat|] == s[lo + i..lo + i + |pat|];
  }

  /** Whitespace removal never creates an occurrence of a pattern. */
  lemma StripKeepsAbsence(s: string, pat: string)
    requires !Contains(s, pat)
    ensures !Contains(Strip(s), pat)
  {
    var r := Strip(s);
    var n := LeadingSpace(s);
    if Contains(r, pat) {
      var i :| 0 <= i <= |r| - |pat| && OccursAt(r, pat, i);
      OccursInSlice(s, n, n + |r|, pat, i);
    }
  }

  /* ---------------------------------------------------------------------- */
  /*  `str.upper()` and hexadecimal digits                                   */
  /* ---------------------------------------------------------------------- */

  predicate IsLowerLetter(c: char) { 'a' <= c <= 'z' }

  predicate IsUpperLetter(c: char) { 'A' <= c <= 'Z' }

  /** Python's `str.upper()` on one ASCII character. */
  function UpperChar(c: char): (u: char)
    ensures !IsLowerLetter(u)
    ensures IsLowerLetter(c) ==> IsUpperLetter(u) && u as int - c as int == 'A' as int - 'a' as int
    ensures !IsLowerLetter(c) ==> u == c
  {
    if IsLowerLetter(c) then (c as int - 32) as char else c
  }

  /** Python's `str.upper()` on ASCII text. */
  function Upper(s: string): (r: string)
    ensures |r| == |s|
    ensures forall i :: 0 <= i < |s| ==> r[i] == UpperChar(s[i])
  {
    seq(|s|, i requires 0 <= i < |s| => UpperChar(s[i]))
  }

  predicate IsHexDigit(c: char) {
    '0' <= c <= '9' || 'a' <= c <= 'f' || 'A' <= c <= 'F'
  }

  /** A digit as Python's `uuid` writes them: `0-9` or `a-f`. */
  predicate IsLowerHexDigit(c: char) {
    '0' <= c <= '9' || 'a' <= c <= 'f'
  }

  predicate IsUpperHexDigit(c: char) {
    '0' <= c <= '9' || 'A' <= c <= 'F'
  }

  /** The value 0..15 a hexadecimal digit stands for, either case. */
  function HexValue(c: char): (v: nat)
    requires IsHexDigit(c)
    ensures v < 16
  {
    if '0' <= c <= '9' then c as int - '0' as int
    else if 'a' <= c <= 'f' then c as int - 'a' as int + 10
    else c as int - 'A' as int + 10
  }

  /** The number a string of hexadecimal digits stands for, most significant first. */
  function HexNumber(s: string): nat
    requires forall i :: 0 <= i < |s| ==> IsHexDigit(s[i])
  {
    if s == [] then 0 else HexNumber(s[..|s| - 1]) * 16 + HexValue(s[|s| - 1])
  }

  /** Upper-casing a hexadecimal digit keeps it a digit of the same value. */
  lemma UpperHexDigit(c: char)
    requires IsHexDigit(c)
    ensures IsUpperHexDigit(UpperChar(c)) && HexValue(UpperChar(c)) == HexValue(c)
  {
  }

  /** Upper-casing a hexadecimal numeral writes the same number. */
  lemma {:induction false} UpperHexNumber(s: string)
    requires forall i :: 0 <= i < |s| ==> IsHexDigit(s[i])
    ensures forall i :: 0 <= i < |s| ==> IsHexDigit(Upper(s)[i]) && IsUpperHexDigit(Upper(s)[i])
    ensures HexNumber(Upper(s)) == HexNumber(s)
    decreases |s|
  {
    forall i | 0 <= i < |s| ensures IsHexDigit(Upper(s)[i]) && IsUpperHexDigit(Upper(s)[i]) {
      UpperHexDigit(s[i]);
    }
    if s != [] {
      var init := s[..|s| - 1];
      UpperHexNumber(init);
      assert Upper(s)[..|s| - 1] == Upper(init);
      UpperHexDigit(s[|s| - 1]);
    }
  }

  /** Upper-casing loses nothing on text without upper-case letters. */
  lemma UpperInjective(x: string, y: string)
    requires forall i :: 0 <= i < |x| ==> !IsUpperLetter(x[i])
    requires forall i :: 0 <= i < |y| ==> !IsUpperLetter(y[i])
    requires Upper(x) == Upper(y)
    ensures x == y
  {
    assert |x| == |y|;
    forall i | 0 <= i < |x| ensures x[i] == y[i] {
      assert UpperChar(x[i]) == UpperChar(y[i]);
    }
  }
}

=== FILE: wrappers.dfy ===
/** Python's `None`-or-value results, as an option type. */
module Wrappers {

  datatype Option<+T> = None | Some(value: T)
}
